=== FILE: README.md ===
# Sound engine of a metronome: a Dafny model

This project models the decision and bookkeeping logic of the small Web Audio
sound engine in `src/js/audio.js`. That file defines the `Audio` class (the
unlock gate, the playback choice between an oscillator tone and a cached
sample, and the cache guard with its merge on load) and the `BufferLoader`
class (one fetch-and-decode batch with a success counter and a completion
callback).

The model is a sequential state machine. The engine is an immutable record
`Engine(unlocked, sampleName, buffers, loaders)`. Each operation is a pure
function that returns the next record and a list of emitted `Effect`s.
Browser calls are effects, not executions: the silent-buffer start, the
oscillator tone, the buffer-source start, the HTTP GET, the warning and the
error reports. The asynchronous outcomes of fetching and decoding one name
arrive as explicit events: `DecodeOk(buffer)`, `DecodeNull`, `DecodeErr` and
`XhrErr`. Each event is addressed to a batch by its position in `loaders`.
A batch records one in-flight entry per request it issued, and each request
resolves at most once. An event for a name with no request in flight cannot happen
in the program, and the model ignores it.

Modules:
- `Wrappers`: `Option` and `Lookup`, which reads a JavaScript object key (`undefined` becomes `None`).
- `Effects`: buffer handles, effects and load problems.
- `BufferLoader`: the batch, its step function `OnEvent` and its run properties.
- `Audio`: the engine operations.
- `AudioProperties`: properties of whole runs of the engine.

Four behaviours of the code that are easy to miss:
- A cache entry can be overwritten. Two cache-guard calls for the same
  uncached name, made before either batch completes, start two batches. The
  later completion replaces the earlier buffer (`DuplicateBatchesOverwrite`).
- An unknown sample name is not reported when the url is looked up. The lookup
  yields `undefined`, and the request is issued anyway (`Fetch(name, None)`).
  Any failure shows up only later, as a failed transport or decode outcome
  (src/js/audio.js:122-130). The batch never completes unless a decode
  outcome succeeds.
- A request that never resolves stalls its batch forever. The code sets no
  timeout and handles no abort or timeout event (src/js/audio.js:103-132), so
  such a request reaches none of its callbacks, and the count never reaches
  the list length (`UnansweredRequestStallsBatch`).
- A batch with no names never completes. The counter is compared with the
  list length only after an increment. The engine only ever starts batches of
  exactly one name.

## Model

| member | source | states |
|---|---|---|
| Wrappers.Lookup | src/js/audio.js:101 | reading a catalog key gives the mapped url exactly when the key is present, and `undefined` otherwise |
| BufferLoader.Create | src/js/audio.js:85-92 | a new batch keeps its names and catalog, with an empty result map, a zero count and nothing in flight |
| BufferLoader.Requests | src/js/audio.js:94-105 | one GET per requested name, in list order, each at the url the catalog gives for that name |
| BufferLoader.Load | src/js/audio.js:94-98 | `load()` puts one request per name in flight, emits those requests, and leaves the results and the count alone |
| BufferLoader.Start | src/js/audio.js:85-98 | a constructed and loaded batch has every name in flight, no results and a zero count |
| BufferLoader.OnEvent | src/js/audio.js:109-130 | a success stores the buffer under its name and increments the count; completion fires exactly when the incremented count equals the list length, and it carries the result map; a null decode, a decode error or a transport error only reports and leaves the count and results unchanged |
| BufferLoader.OrphanEventIgnored | src/js/audio.js:103-132 | an outcome with no matching request in flight changes nothing and never completes |
| BufferLoader.OnEventKeepsAccounted | src/js/audio.js:118-119 | resolving a request never pushes the count past the list length minus the requests still in flight |
| BufferLoader.RunCountsSuccesses | src/js/audio.js:114-120 | over a run of the batch, the count grows by exactly the number of successful decodes |
| BufferLoader.RunResolvesRequests | src/js/audio.js:109-130 | over a run of the batch, each answered request leaves the in-flight set exactly once |
| BufferLoader.RunStoresSucceeded | src/js/audio.js:118 | over a run of the batch, the result map gains exactly the names that decoded, no name is removed, and every entry is either unchanged or a buffer that a successful decode of that name produced |
| BufferLoader.RunStoresDecoded | src/js/audio.js:113-118 | over any sequence of outcomes, every stored buffer was there before or came from a successful decode of its own name |
| BufferLoader.FiresAtMostOnce | src/js/audio.js:119-120 | on any sequence of outcomes the callback runs at most once, and never after the count has reached the list length |
| BufferLoader.CompletionCount | src/js/audio.js:119-120 | over a run of the batch, the callback runs exactly when the success count crosses the list length, and it receives the final result map |
| BufferLoader.KeysOfCompletion | src/js/audio.js:118-120 | when every requested name decodes, the result map has exactly the requested names as keys |
| BufferLoader.CompletesIffAllDecode | src/js/audio.js:91-130 | for a started batch of at least one name: at most one completion, a completion if and only if every request decoded successfully, and then one buffer per requested name, each produced by a successful decode of that name |
| BufferLoader.BatchCompletesIffAllDecode | src/js/audio.js:85-130 | the same, stated for `new BufferLoader(names, urls, callback).load()`: the callback's map sends each requested name to a buffer decoded for it |
| BufferLoader.UnansweredRequestStallsBatch | src/js/audio.js:103-132 | a started batch whose run answers fewer requests than it has names never runs its callback, whatever the answers are |
| BufferLoader.EmptyBatchNeverCompletes | src/js/audio.js:94-98 | a batch of no names never runs its callback, whatever outcomes arrive |
| Audio.Init | src/js/audio.js:4-20 | a new engine is locked, selects the tone, and has an empty cache and no batches |
| Audio.UnlockAudio | src/js/audio.js:23-32 | while locked, it emits one silent one-frame 22050 Hz buffer start at time 0 and becomes unlocked; once unlocked, it changes nothing and emits nothing |
| Audio.PlayNote | src/js/audio.js:42-61 | in tone mode, one oscillator command with the given frequency, start and stop; for an uncached sample, a warning and no command; for a cached sample, one buffer start of the cached buffer at the start time, with no stop |
| Audio.MaybeLoadSample | src/js/audio.js:63-78 | in tone mode or for a cached sample, it does nothing; otherwise it starts exactly one batch for just the selected name and emits its one request |
| Audio.Merge | src/js/audio.js:71-75 | completion writes every result key into the cache, keeps every other cache entry, and removes no key |
| Audio.MergeEach | src/js/audio.js:71-75 | the callback's loop as written: each visited result key takes the result's buffer, every other cache entry keeps its value, and no key is removed |
| Audio.MergeEachIsMerge | src/js/audio.js:71-75 | the per-key assignment loop gives the same cache whatever order the result keys are visited in |
| Audio.DeliverEvent | src/js/audio.js:70-76 | an outcome steps its batch and merges the batch result into the cache when the callback runs; the gate and the selection are untouched, and no cache key is lost |
| AudioProperties.UnlockIdempotent | src/js/audio.js:23-32 | a second unlock changes nothing and emits nothing, so two unlocks emit one silent start from a locked engine |
| AudioProperties.UnlockedMonotonic | src/js/audio.js:8-31 | after any run, the engine is unlocked exactly when it started unlocked or some input was an unlock, so the flag is never reset |
| AudioProperties.StepSilentStarts | src/js/audio.js:25-31 | only an unlock on a locked engine emits a silent-buffer start |
| AudioProperties.SilentStartAtMostOnce | src/js/audio.js:25-31 | over any run there is one silent-buffer start if the engine started locked and was unlocked, and none otherwise |
| AudioProperties.InitSilentStartAtMostOnce | src/js/audio.js:8-32 | from a new engine, at most one silent-buffer start ever, and the engine is unlocked exactly when some input unlocked it |
| AudioProperties.BeepPlaysIffReady | src/js/audio.js:42-61 | a note never changes the engine; it emits one effect, which is an audio command exactly when tone mode is selected or the sample is cached |
| AudioProperties.LoadThenCached | src/js/audio.js:63-78 | after the guard starts a batch for an uncached sample and its decode succeeds, the sample is cached with that buffer, nothing else changed, and the guard then does nothing |
| AudioProperties.CacheNeverShrinks | src/js/audio.js:70-75 | no run removes a cache key |
| AudioProperties.StepWellFormed | src/js/audio.js:70-91 | every input keeps each held batch at one name, the engine's catalog, and a count within bounds |
| AudioProperties.RunWellFormed | src/js/audio.js:70-91 | the same holds over any run |
| AudioProperties.CompletedBatchInert | src/js/audio.js:119-120 | once a batch has completed, no later outcome for it changes the engine or emits anything, so no batch merges twice |
| AudioProperties.HihatScenario | src/js/audio.js:10-78 | with "hihat" selected, a note before the load completes only warns; after a successful decode, the next note plays the decoded buffer at its start time |
| AudioProperties.DuplicateBatchesOverwrite | src/js/audio.js:68-74 | two guard calls for the same uncached name start two batches, and the later completion overwrites the cached buffer |

## Left out

- Creating the `AudioContext`, and the node-graph calls (`createOscillator`, `createBufferSource`, `createBuffer`, `connect`, `start`, `stop`): these are modelled as emitted effects, without browser semantics.
- The `XMLHttpRequest` transport and the internals of `decodeAudioData`: these are foreign asynchronous APIs. Only their outcomes enter the model, as events.
- `console.log`: it is omitted. `console.warn` becomes a `Warn` effect. `console.error` and `alert` become `Report` effects.
- Times and frequencies: they are passed through as `real` values, with no arithmetic on them.
- `getAudioContext`, `getUiData` and the empty `loadSamples`: trivial getters and an empty method. The UI's write to `uiData.sampleName` is modelled as the `Select` input.
- Concurrent interleaving of batches: the model delivers outcomes one at a time, in any order and to any batch, which covers the single-threaded event loop.
- JavaScript's `in` operator also finds keys inherited from `Object.prototype` (such as `"toString"`). The model treats `in` (src/js/audio.js:51 and 68) as membership in the map's own keys.
- Wrappers.Lookup: a property read such as `this.sampleUrlsMap[sampleName]` (src/js/audio.js:101) or `this.buffers[...]` (src/js/audio.js:57) also finds names inherited from `Object.prototype`; for `"toString"` or `"constructor"` it reads a function, not `undefined`. The model reads only the map's own keys, so such a name gives `None`. Modelling the prototype chain would need a model of JavaScript objects, which is outside this engine.
- How a note's frequency is chosen: `beep` receives it as an argument (src/js/audio.js:42).

=== FILE: audio.dfy ===
/**
 * The sound engine: the unlock gate, the playback selector, and the sample
 * cache with its guard and merge-on-completion. The engine is an immutable
 * record; every operation returns the next record and the effects it emitted.
 */
module Audio {
  import opened Wrappers
  import opened Effects
  import BufferLoader

  /** The sample name that selects the synthesized tone instead of a sample. */
  const BEEP: string := "beep"

  /** The sample catalog: name to retrieval url. */
  const SampleUrls: map<string, string> := map["hihat" := "static/sounds/hihat.wav"]

  /** The unlock trick: a one-channel, one-frame buffer at 22050 Hz, started at time 0. */
  const SilentBuffer: Effect := SilentBufferStart(1, 1, 22050, 0.0)

  /**
   * `unlocked` gates output on a user gesture; `sampleName` is the UI-bound
   * selection; `buffers` caches decoded samples by name; `loaders` holds every
   * batch ever started, addressed by position.
   */
  datatype Engine = Engine(
    unlocked: bool,
    sampleName: string,
    buffers: map<string, Buf>,
    loaders: seq<BufferLoader.Loader>)

  datatype Transition = Transition(engine: Engine, effects: seq<Effect>)

  /** Everything that can happen to the engine, one at a time. */
  datatype Input =
    | Unlock                                              // a user gesture calls the unlock routine
    | Beep(freq: real, startTime: real, stopTime: real)  // the scheduler realizes one note
    | MaybeLoad                                           // the scheduler asks for the selected sample
    | Select(name: string)                                // the UI writes the sample selection
    | Deliver(batch: nat, event: BufferLoader.Event)      // an asynchronous load outcome arrives

  /** A new engine: locked, tone mode, empty cache, no batches. */
  function Init(): (e: Engine)
    ensures !e.unlocked && e.sampleName == BEEP && e.buffers == map[] && e.loaders == []
  {
    Engine(false, BEEP, map[], [])
  }

  /**
   * The unlock gate: while locked, start one silent buffer and become
   * unlocked; once unlocked, do nothing at all.
   */
  function UnlockAudio(e: Engine): (t: Transition)
    ensures t.engine.unlocked
    ensures !e.unlocked ==> t.effects == [SilentBuffer] && t.engine == e.(unlocked := true)
    ensures e.unlocked ==> t == Transition(e, [])
  {
    if !e.unlocked then Transition(e.(unlocked := true), [SilentBuffer])
    else Transition(e, [])
  }

  /**
   * The playback selector. It only reads the engine. In tone mode it emits
   * one oscillator command with the given frequency, start and stop; for a
   * cached sample, one buffer start of the cached buffer at `startTime` with
   * no stop; for an uncached sample, a warning and no audio command.
   */
  function PlayNote(e: Engine, freq: real, startTime: real, stopTime: real): (fs: seq<Effect>)
    ensures e.sampleName == BEEP ==> fs == [OscillatorTone(freq, startTime, stopTime)]
    ensures e.sampleName != BEEP && e.sampleName !in e.buffers ==> fs == [Warn(e.sampleName)]
    ensures e.sampleName != BEEP && e.sampleName in e.buffers ==>
      fs == [BufferSourceStart(e.buffers[e.sampleName], startTime)]
  {
    if e.sampleName == BEEP then
      [OscillatorTone(freq, startTime, stopTime)]
    else if e.sampleName !in e.buffers then
      [Warn(e.sampleName)]
    else
      [BufferSourceStart(e.buffers[e.sampleName], startTime)]
  }

  /**
   * The cache guard: in tone mode, or when the selected name is already
   * cached, nothing happens. Otherwise exactly one new batch for just the
   * selected name is started, and its single request is emitted.
   */
  function MaybeLoadSample(e: Engine): (t: Transition)
    ensures e.sampleName == BEEP || e.sampleName in e.buffers ==> t == Transition(e, [])
    ensures e.sampleName != BEEP && e.sampleName !in e.buffers ==>
      && t.engine == e.(loaders := e.loaders + [BufferLoader.Start([e.sampleName], SampleUrls).loader])
      && t.effects == [Fetch(e.sampleName, Lookup(SampleUrls, e.sampleName))]
  {
    if e.sampleName == BEEP || e.sampleName in e.buffers then Transition(e, [])
    else
      var s := BufferLoader.Start([e.sampleName], SampleUrls);
      Transition(e.(loaders := e.loaders + [s.loader]), s.requests)
  }

  /**
   * The completion callback of a batch started by the cache guard: every
   * key of the batch result is written into the cache, every other cache
   * entry keeps its value, and no key is removed.
   */
  function Merge(cache: map<string, Buf>, result: map<string, Buf>): (m: map<string, Buf>)
    ensures m.Keys == cache.Keys + result.Keys
    ensures forall k :: k in result ==> m[k] == result[k]
    ensures forall k :: k in cache && k !in result ==> m[k] == cache[k]
  {
    cache + result
  }

  /**
   * The callback's loop as written: one assignment per key, in the given key
   * order. Every visited key takes the result's buffer, every other entry
   * keeps its value, and nothing is removed.
   */
  function MergeEach(cache: map<string, Buf>, result: map<string, Buf>, keys: seq<string>): (m: map<string, Buf>)
    requires forall i :: 0 <= i < |keys| ==> keys[i] in result
    ensures m.Keys == cache.Keys + (set k | k in keys)
    ensures forall k :: k in keys ==> m[k] == result[k]
    ensures forall k :: k in cache && k !in keys ==> m[k] == cache[k]
    decreases |keys|
  {
    if keys == [] then cache
    else MergeEach(cache[keys[0] := result[keys[0]]], result, keys[1..])
  }

  /**
   * Whatever order the keys of the result are visited in, the per-key
   * assignments produce the same cache as `Merge`.
   */
  lemma MergeEachIsMerge(cache: map<string, Buf>, result: map<string, Buf>, keys: seq<string>)
    requires (set k | k in keys) == result.Keys
    ensures MergeEach(cache, result, keys) == Merge(cache, result)
  {
  }

  /**
   * An asynchronous outcome for batch `batch`. The batch steps; if its
   * callback runs, the result is merged into the cache. Reports from the
   * batch are passed on. An outcome for a batch that was never started
   * changes nothing.
   */
  function DeliverEvent(e: Engine, batch: nat, ev: BufferLoader.Event): (t: Transition)
    ensures t.engine.unlocked == e.unlocked && t.engine.sampleName == e.sampleName
    ensures |t.engine.loaders| == |e.loaders|
    ensures e.buffers.Keys <= t.engine.buffers.Keys
    ensures batch >= |e.loaders| ==> t == Transition(e, [])
    ensures batch < |e.loaders| ==>
      var d := BufferLoader.OnEvent(e.loaders[batch], ev);
      && t.engine.loaders == e.loaders[batch := d.loader]
      && t.engine.buffers == (if d.fired.Some? then Merge(e.buffers, d.fired.value) else e.buffers)
      && t.effects == d.reports
  {
    if batch >= |e.loaders| then Transition(e, [])
    else
      var d := BufferLoader.OnEvent(e.loaders[batch], ev);
      var cache := if d.fired.Some? then Merge(e.buffers, d.fired.value) else e.buffers;
      Transition(e.(buffers := cache, loaders := e.loaders[batch := d.loader]), d.reports)
  }

  /** One input. */
  function Step(e: Engine, i: Input): Transition {
    match i
    case Unlock => UnlockAudio(e)
    case Beep(freq, startTime, stopTime) => Transition(e, PlayNote(e, freq, startTime, stopTime))
    case MaybeLoad => MaybeLoadSample(e)
    case Select(name) => Transition(e.(sampleName := name), [])
    case Deliver(batch, ev) => DeliverEvent(e, batch, ev)
  }

  /** A sequence of inputs, with all emitted effects in order. */
  function Run(e: Engine, inputs: seq<Input>): Transition
    decreases |inputs|
  {
    if inputs == [] then Transition(e, [])
    else
      var t := Step(e, inputs[0]);
      var u := Run(t.engine, inputs[1..]);
      Transition(u.engine, t.effects + u.effects)
  }
}

=== FILE: audio_properties.dfy ===
/**
 * Properties of whole runs of the sound engine: the unlock gate fires once,
 * the cache only grows, batches stay within their counters, plus the
 * hihat scenario and the overwrite that duplicate batches allow.
 */
module AudioProperties {
  import opened Wrappers
  import opened Effects
  import BufferLoader
  import opened Audio

  /** Unlocking twice is the same as unlocking once, and the second call emits nothing. */
  lemma UnlockIdempotent(e: Engine)
    ensures UnlockAudio(UnlockAudio(e).engine) == Transition(UnlockAudio(e).engine, [])
    ensures SilentStarts(UnlockAudio(e).effects + UnlockAudio(UnlockAudio(e).engine).effects) ==
      (if e.unlocked then 0 else 1)
  {
  }

  /** After any run the engine is unlocked exactly when it was, or some input was an unlock. */
  lemma {:induction false} UnlockedMonotonic(e: Engine, inputs: seq<Input>)
    ensures Run(e, inputs).engine.unlocked <==> e.unlocked || Unlock in inputs
    decreases |inputs|
  {
    if inputs != [] {
      UnlockedMonotonic(Step(e, inputs[0]).engine, inputs[1..]);
      assert Unlock in inputs <==> inputs[0] == Unlock || Unlock in inputs[1..] by {
        assert inputs == [inputs[0]] + inputs[1..];
      }
    }
  }

  /** Only the unlock input can emit a silent-buffer start, and only while locked. */
  lemma StepSilentStarts(e: Engine, i: Input)
    ensures SilentStarts(Step(e, i).effects) == (if i == Unlock && !e.unlocked then 1 else 0)
  {
  }

  /**
   * Over any run, the number of silent-buffer starts is one if the engine
   * started locked and some input was an unlock, and zero otherwise.
   */
  lemma {:induction false} SilentStartAtMostOnce(e: Engine, inputs: seq<Input>)
    ensures SilentStarts(Run(e, inputs).effects) == (if !e.unlocked && Unlock in inputs then 1 else 0)
    decreases |inputs|
  {
    if inputs != [] {
      var t := Step(e, inputs[0]);
      StepSilentStarts(e, inputs[0]);
      SilentStartAtMostOnce(t.engine, inputs[1..]);
      UnlockedMonotonic(e, inputs[..1]);
      assert Run(e, inputs).effects == t.effects + Run(t.engine, inputs[1..]).effects;
      SilentStartsAppend(t.effects, Run(t.engine, inputs[1..]).effects);
      assert Unlock in inputs <==> inputs[0] == Unlock || Unlock in inputs[1..] by {
        assert inputs == [inputs[0]] + inputs[1..];
      }
    }
  }

  /** From a new engine the unlock gate emits at most one silent-buffer start, ever. */
  lemma InitSilentStartAtMostOnce(inputs: seq<Input>)
    ensures SilentStarts(Run(Init(), inputs).effects) <= 1
    ensures Run(Init(), inputs).engine.unlocked <==> Unlock in inputs
  {
    SilentStartAtMostOnce(Init(), inputs);
    UnlockedMonotonic(Init(), inputs);
  }

  /** A note never changes the engine, and it plays exactly when tone mode is selected or the sample is cached. */
  lemma BeepPlaysIffReady(e: Engine, freq: real, startTime: real, stopTime: real)
    ensures Step(e, Beep(freq, startTime, stopTime)).engine == e
    ensures var fs := Step(e, Beep(freq, startTime, stopTime)).effects;
      |fs| == 1 && (IsAudioCommand(fs[0]) <==> e.sampleName == BEEP || e.sampleName in e.buffers)
  {
  }

  /**
   * The cache guard and the merge together: after the guard starts a batch
   * for an uncached sample and that batch's one decode succeeds, the sample
   * is cached with the decoded buffer, no other entry changed, and the guard
   * then does nothing.
   */
  lemma LoadThenCached(e: Engine, b: Buf)
    requires e.sampleName != BEEP && e.sampleName !in e.buffers
    ensures var e1 := MaybeLoadSample(e).engine;
      var e2 := DeliverEvent(e1, |e.loaders|, BufferLoader.Event(e.sampleName, BufferLoader.DecodeOk(b))).engine;
      && e2.buffers == e.buffers[e.sampleName := b]
      && MaybeLoadSample(e2) == Transition(e2, [])
  {
  }

  /** No input removes a cache entry. */
  lemma {:induction false} CacheNeverShrinks(e: Engine, inputs: seq<Input>)
    ensures e.buffers.Keys <= Run(e, inputs).engine.buffers.Keys
    decreases |inputs|
  {
    if inputs != [] {
      CacheNeverShrinks(Step(e, inputs[0]).engine, inputs[1..]);
    }
  }

  /**
   * Every batch the engine holds was started by the cache guard: one name,
   * the engine's catalog, and a counter within the list length.
   */
  ghost predicate WellFormed(e: Engine) {
    forall b :: 0 <= b < |e.loaders| ==>
      && |e.loaders[b].sampleNames| == 1
      && e.loaders[b].sampleUrls == SampleUrls
      && BufferLoader.Accounted(e.loaders[b])
  }

  /** Every input keeps the engine well formed. */
  lemma StepWellFormed(e: Engine, i: Input)
    requires WellFormed(e)
    ensures WellFormed(Step(e, i).engine)
  {
  }

  /** Every run keeps the engine well formed. */
  lemma {:induction false} RunWellFormed(e: Engine, inputs: seq<Input>)
    requires WellFormed(e)
    ensures WellFormed(Run(e, inputs).engine)
    decreases |inputs|
  {
    if inputs != [] {
      StepWellFormed(e, inputs[0]);
      RunWellFormed(Step(e, inputs[0]).engine, inputs[1..]);
    }
  }

  /**
   * A batch whose callback has already run is inert: no later outcome for
   * it touches the cache, the batch or the effects, so no batch merges twice.
   */
  lemma CompletedBatchInert(e: Engine, batch: nat, ev: BufferLoader.Event)
    requires WellFormed(e)
    requires batch < |e.loaders| && e.loaders[batch].loadCount == |e.loaders[batch].sampleNames|
    ensures DeliverEvent(e, batch, ev) == Transition(e, [])
  {
  }

  /**
   * The hihat scenario: with "hihat" selected, the first note before
   * the load completes plays nothing and warns; once the decode succeeds,
   * the next note plays the decoded buffer at its start time.
   */
  lemma HihatScenario(b: Buf, f0: real, t0: real, s0: real, f1: real, t1: real, s1: real)
    ensures var inputs := [Select("hihat"), MaybeLoad, Beep(f0, t0, s0),
                           Deliver(0, BufferLoader.Event("hihat", BufferLoader.DecodeOk(b))),
                           MaybeLoad, Beep(f1, t1, s1)];
      Run(Init(), inputs).effects ==
        [Fetch("hihat", Some("static/sounds/hihat.wav")), Warn("hihat"), BufferSourceStart(b, t1)]
  {
    var ev := BufferLoader.Event("hihat", BufferLoader.DecodeOk(b));
    var e0 := Init().(sampleName := "hihat");
    var e1, e2 := HihatLoaded(b);
    var tail := [MaybeLoad, Beep(f1, t1, s1)];
    assert Run(e2, tail).effects == [BufferSourceStart(b, t1)] by {
      assert Step(e2, MaybeLoad) == Transition(e2, []);
      assert Run(e2, tail[1..]).effects == [BufferSourceStart(b, t1)];
    }
    var mid := [Deliver(0, ev)] + tail;
    assert Run(e1, mid).effects == [BufferSourceStart(b, t1)] by {
      assert Step(e1, Deliver(0, ev)) == Transition(e2, []);
      assert mid[1..] == tail;
    }
    var early := [MaybeLoad, Beep(f0, t0, s0)] + mid;
    assert Run(e0, early).effects ==
      [Fetch("hihat", Some("static/sounds/hihat.wav")), Warn("hihat"), BufferSourceStart(b, t1)] by {
      assert Step(e1, Beep(f0, t0, s0)) == Transition(e1, [Warn("hihat")]);
      assert early[1..][1..] == mid;
      assert Run(e1, early[1..]).effects == [Warn("hihat"), BufferSourceStart(b, t1)];
    }
    var inputs := [Select("hihat"), MaybeLoad, Beep(f0, t0, s0), Deliver(0, ev), MaybeLoad, Beep(f1, t1, s1)];
    assert inputs[1..] == early;
    assert Step(Init(), Select("hihat")) == Transition(e0, []);
  }

  /** The engine states of the scenario: after the guard starts the batch, and after its decode succeeds. */
  lemma HihatLoaded(b: Buf) returns (e1: Engine, e2: Engine)
    ensures var e0 := Init().(sampleName := "hihat");
      && MaybeLoadSample(e0) == Transition(e1, [Fetch("hihat", Some("static/sounds/hihat.wav"))])
      && "hihat" !in e1.buffers && e1.sampleName == "hihat"
      && DeliverEvent(e1, 0, BufferLoader.Event("hihat", BufferLoader.DecodeOk(b))) == Transition(e2, [])
      && e2.buffers == map["hihat" := b] && e2.sampleName == "hihat"
  {
    var e0 := Init().(sampleName := "hihat");
    assert "hihat" != BEEP;
    e1 := MaybeLoadSample(e0).engine;
    assert e1.loaders[0].inFlight == multiset{"hihat"};
    e2 := DeliverEvent(e1, 0, BufferLoader.Event("hihat", BufferLoader.DecodeOk(b))).engine;
  }

  /**
   * Two cache-guard calls for the same name before either batch completes
   * start two batches; when both complete, the later completion's buffer
   * replaces the earlier one in the cache.
   */
  lemma DuplicateBatchesOverwrite(b1: Buf, b2: Buf)
    requires b1 != b2
    ensures var inputs := [Select("hihat"), MaybeLoad, MaybeLoad,
                           Deliver(0, BufferLoader.Event("hihat", BufferLoader.DecodeOk(b1))),
                           Deliver(1, BufferLoader.Event("hihat", BufferLoader.DecodeOk(b2)))];
      var e := Run(Init(), inputs).engine;
      |e.loaders| == 2 && e.buffers == map["hihat" := b2]
  {
    var ev1 := BufferLoader.Event("hihat", BufferLoader.DecodeOk(b1));
    var ev2 := BufferLoader.Event("hihat", BufferLoader.DecodeOk(b2));
    var inputs := [Select("hihat"), MaybeLoad, MaybeLoad, Deliver(0, ev1), Deliver(1, ev2)];
    var e0 := Init().(sampleName := "hihat");
    assert "hihat" != BEEP;
    var e1 := MaybeLoadSample(e0).engine;
    var e2 := MaybeLoadSample(e1).engine;
    assert |e2.loaders| == 2;
    assert e2.loaders[0].inFlight == multiset{"hihat"};
    assert e2.loaders[1].inFlight == multiset{"hihat"};
    var e3 := DeliverEvent(e2, 0, ev1).engine;
    assert e3.buffers == map["hihat" := b1];
    assert e3.loaders[1] == e2.loaders[1];
    var e4 := DeliverEvent(e3, 1, ev2).engine;
    assert e4.buffers == map["hihat" := b2];
    assert Run(e4, inputs[5..]).engine == e4;
    assert Run(e3, inputs[4..]).engine == e4;
    assert Run(e2, inputs[3..]).engine == e4;
    assert Run(e1, inputs[2..]).engine == e4;
    assert Run(e0, inputs[1..]).engine == e4;
  }
}

=== FILE: buffer_loader.dfy ===
/**
 * One load batch: a list of sample names fetched and decoded independently,
 * with a per-batch result map and a success counter. The completion callback
 * runs with the result map at the moment the counter reaches the number of
 * requested names. The asynchronous outcomes of the fetch and decode steps
 * arrive as explicit events.
 */
module BufferLoader {
  import opened Wrappers
  import opened Effects

  /** How the fetch-then-decode chain for one requested name ended. */
  datatype Outcome =
    | DecodeOk(buffer: Buf)  // the decoder produced a buffer
    | DecodeNull             // the decoder's success callback got a null buffer
    | DecodeErr              // the decoder's error callback ran
    | XhrErr                 // the HTTP request failed before any decoding

  datatype Event = Event(name: string, outcome: Outcome)

  /**
   * `inFlight` holds one entry per issued request that has not yet resolved;
   * each request resolves at most once (a stalled or aborted request never
   * reaches a callback), so an event consumes one entry.
   */
  datatype Loader = Loader(
    sampleNames: seq<string>,
    sampleUrls: map<string, string>,
    inFlight: multiset<string>,
    buffers: map<string, Buf>,
    loadCount: nat)

  /** The loader after `load()`, with the requests it issued. */
  datatype Started = Started(loader: Loader, requests: seq<Effect>)

  /** The loader after one event, the completion payload if the callback ran, and reports. */
  datatype Delivery = Delivery(loader: Loader, fired: Option<map<string, Buf>>, reports: seq<Effect>)

  /** The loader after a sequence of events and every completion payload, in order. */
  datatype Trace = Trace(loader: Loader, completions: seq<map<string, Buf>>)

  /** A new batch: nothing requested yet, no results, count zero. */
  function Create(sampleNames: seq<string>, sampleUrls: map<string, string>): (l: Loader)
    ensures l.sampleNames == sampleNames && l.sampleUrls == sampleUrls
    ensures l.buffers == map[] && l.loadCount == 0 && |l.inFlight| == 0
  {
    Loader(sampleNames, sampleUrls, multiset{}, map[], 0)
  }

  /** One GET per name, in list order, each at the url the catalog gives (or none). */
  function Requests(names: seq<string>, urls: map<string, string>): (rs: seq<Effect>)
    ensures |rs| == |names|
    ensures forall i :: 0 <= i < |names| ==> rs[i] == Fetch(names[i], Lookup(urls, names[i]))
  {
    if names == [] then []
    else [Fetch(names[0], Lookup(urls, names[0]))] + Requests(names[1..], urls)
  }

  /** `load()`: issue one request per requested name; nothing else about the batch changes. */
  function Load(l: Loader): (s: Started)
    ensures s.loader.inFlight == l.inFlight + multiset(l.sampleNames)
    ensures s.loader.sampleNames == l.sampleNames && s.loader.sampleUrls == l.sampleUrls
    ensures s.loader.buffers == l.buffers && s.loader.loadCount == l.loadCount
    ensures |s.requests| == |l.sampleNames|
    ensures forall i :: 0 <= i < |s.requests| ==>
      s.requests[i] == Fetch(l.sampleNames[i], Lookup(l.sampleUrls, l.sampleNames[i]))
  {
    Started(l.(inFlight := l.inFlight + multiset(l.sampleNames)), Requests(l.sampleNames, l.sampleUrls))
  }

  /** `new BufferLoader(...).load()`, the only way the engine uses a loader. */
  function Start(sampleNames: seq<string>, sampleUrls: map<string, string>): (s: Started)
    ensures s.loader.inFlight == multiset(sampleNames)
    ensures s.loader.sampleNames == sampleNames && s.loader.sampleUrls == sampleUrls
    ensures s.loader.buffers == map[] && s.loader.loadCount == 0
    ensures |s.requests| == |sampleNames|
  {
    Load(Create(sampleNames, sampleUrls))
  }

  /**
   * The resolution of one request. A successful decode stores the buffer and
   * bumps the counter, and completion fires when the bumped counter equals the
   * number of requested names. A null buffer, a decode error or a transport
   * error only produce a report: the counter stays put. An event for a name
   * with no request in flight cannot occur and is ignored.
   */
  function OnEvent(l: Loader, ev: Event): (d: Delivery)
    ensures d.loader.sampleNames == l.sampleNames && d.loader.sampleUrls == l.sampleUrls
    ensures d.loader.inFlight == if ev.name in l.inFlight then l.inFlight - multiset{ev.name} else l.inFlight
    ensures d.loader.loadCount == l.loadCount + (if ev.name in l.inFlight && ev.outcome.DecodeOk? then 1 else 0)
    ensures d.loader.buffers ==
      if ev.name in l.inFlight && ev.outcome.DecodeOk? then l.buffers[ev.name := ev.outcome.buffer] else l.buffers
    ensures d.fired.Some? <==>
      ev.name in l.inFlight && ev.outcome.DecodeOk? && l.loadCount + 1 == |l.sampleNames|
    ensures d.fired.Some? ==> d.fired.value == d.loader.buffers
    ensures |d.reports| == (if ev.name in l.inFlight && !ev.outcome.DecodeOk? then 1 else 0)
    ensures forall i :: 0 <= i < |d.reports| ==> d.reports[i].Report?
  {
    if ev.name !in l.inFlight then Delivery(l, None, [])
    else
      var resolved := l.(inFlight := l.inFlight - multiset{ev.name});
      match ev.outcome
      case XhrErr => Delivery(resolved, None, [Report(TransportFailed)])
      case DecodeErr => Delivery(resolved, None, [Report(DecodeFailed)])
      case DecodeNull => Delivery(resolved, None, [Report(NullDecode(Lookup(l.sampleUrls, ev.name)))])
      case DecodeOk(b) =>
        var stored := resolved.(buffers := resolved.buffers[ev.name := b], loadCount := resolved.loadCount + 1);
        Delivery(stored, if stored.loadCount == |stored.sampleNames| then Some(stored.buffers) else None, [])
  }

  /** Feed events to a loader in order, collecting completion payloads. */
  function Run(l: Loader, events: seq<Event>): Trace
    decreases |events|
  {
    if events == [] then Trace(l, [])
    else
      var d := OnEvent(l, events[0]);
      var t := Run(d.loader, events[1..]);
      Trace(t.loader, (if d.fired.Some? then [d.fired.value] else []) + t.completions)
  }

  /**
   * The names the events answer, in order. Only the length is stated: the
   * run lemmas reason through `multiset(Names(...))`, and unfolding one
   * element at a time keeps those proofs small.
   */
  function Names(events: seq<Event>): (ns: seq<string>)
    ensures |ns| == |events|
  {
    if events == [] then [] else [events[0].name] + Names(events[1..])
  }

  /** The number of successful decodes among the events. */
  function Successes(events: seq<Event>): nat {
    if events == [] then 0
    else (if events[0].outcome.DecodeOk? then 1 else 0) + Successes(events[1..])
  }

  /** The names that decoded successfully. */
  function SucceededNames(events: seq<Event>): set<string> {
    if events == [] then {}
    else (if events[0].outcome.DecodeOk? then {events[0].name} else {}) + SucceededNames(events[1..])
  }

  /**
   * Counted successes plus requests still in flight never exceed the number
   * of requested names, so the counter can reach the list length only once.
   */
  ghost predicate Accounted(l: Loader) {
    l.loadCount + |l.inFlight| <= |l.sampleNames|
  }

  /** Each event answers a request that is still in flight (a real run of the batch). */
  ghost predicate Answers(l: Loader, events: seq<Event>) {
    multiset(Names(events)) <= l.inFlight
  }

  /** At most one success per event, and exactly one per event only when every event is a success. */
  lemma SuccessesBound(events: seq<Event>)
    ensures Successes(events) <= |events|
    ensures Successes(events) == |events| <==> forall i :: 0 <= i < |events| ==> events[i].outcome.DecodeOk?
  {
  }

  /** When every event is a success, the succeeded names are all the event names. */
  lemma {:induction false} AllSucceededNames(events: seq<Event>)
    requires forall i :: 0 <= i < |events| ==> events[i].outcome.DecodeOk?
    ensures SucceededNames(events) == set n | n in Names(events)
  {
    if events != [] {
      assert forall i :: 0 <= i < |events| - 1 ==> events[1..][i] == events[i + 1];
      AllSucceededNames(events[1..]);
      assert Names(events) == [events[0].name] + Names(events[1..]);
    }
  }

  /** An event for a name with no request in flight changes nothing and never completes. */
  lemma OrphanEventIgnored(l: Loader, ev: Event)
    requires ev.name !in l.inFlight
    ensures OnEvent(l, ev) == Delivery(l, None, [])
  {
  }

  /** Resolving one request keeps the counter within the list length. */
  lemma OnEventKeepsAccounted(l: Loader, ev: Event)
    requires Accounted(l)
    ensures Accounted(OnEvent(l, ev).loader)
  {
  }

  /** In a real run the first event answers an in-flight request, and the rest answer what remains. */
  lemma AnswersStep(l: Loader, events: seq<Event>)
    requires Answers(l, events) && events != []
    ensures events[0].name in l.inFlight
    ensures Answers(OnEvent(l, events[0]).loader, events[1..])
  {
  }

  /** Over a real run the counter grows by exactly the number of successful decodes. */
  lemma {:induction false} RunCountsSuccesses(l: Loader, events: seq<Event>)
    requires Answers(l, events)
    ensures Run(l, events).loader.loadCount == l.loadCount + Successes(events)
    decreases |events|
  {
    if events != [] {
      AnswersStep(l, events);
      RunCountsSuccesses(OnEvent(l, events[0]).loader, events[1..]);
    }
  }

  /** Over a real run every answered request leaves the in-flight set, once. */
  lemma {:induction false} RunResolvesRequests(l: Loader, events: seq<Event>)
    requires Answers(l, events)
    ensures Run(l, events).loader.inFlight == l.inFlight - multiset(Names(events))
    decreases |events|
  {
    if events != [] {
      var ev := events[0];
      AnswersStep(l, events);
      var d := OnEvent(l, ev);
      RunResolvesRequests(d.loader, events[1..]);
      assert multiset(Names(events)) == multiset{ev.name} + multiset(Names(events[1..])) by {
        assert Names(events) == [ev.name] + Names(events[1..]);
      }
      MultisetSubtractTwice(l.inFlight, multiset{ev.name}, multiset(Names(events[1..])));
    }
  }

  /** Removing `a` and then `b` is removing both at once. */
  lemma MultisetSubtractTwice<T>(m: multiset<T>, a: multiset<T>, b: multiset<T>)
    requires a <= m
    ensures (m - a) - b == m - (a + b)
  {
  }

  /** Some event of the run is a successful decode of `n` into `b`. */
  ghost predicate DecodedTo(events: seq<Event>, n: string, b: Buf) {
    exists i :: 0 <= i < |events| && events[i] == Event(n, DecodeOk(b))
  }

  /**
   * Over any run the result map gains exactly the names that decoded, and
   * nothing is removed; every entry either was there before, unchanged, or
   * holds a buffer that a successful decode of its name produced.
   */
  lemma {:induction false} RunStoresSucceeded(l: Loader, events: seq<Event>)
    requires Answers(l, events)
    ensures Run(l, events).loader.buffers.Keys == l.buffers.Keys + SucceededNames(events)
    ensures var m := Run(l, events).loader.buffers;
      forall n :: n in m ==> (n in l.buffers && m[n] == l.buffers[n]) || DecodedTo(events, n, m[n])
    decreases |events|
  {
    RunStoresDecoded(l, events);
    if events != [] {
      AnswersStep(l, events);
      RunStoresSucceeded(OnEvent(l, events[0]).loader, events[1..]);
    }
  }

  /** Every stored buffer was there before the run or came from a successful decode of its name. */
  lemma {:induction false} RunStoresDecoded(l: Loader, events: seq<Event>)
    ensures var m := Run(l, events).loader.buffers;
      forall n :: n in m ==> (n in l.buffers && m[n] == l.buffers[n]) || DecodedTo(events, n, m[n])
    decreases |events|
  {
    if events != [] {
      var ev := events[0];
      var d := OnEvent(l, ev);
      var m := Run(l, events).loader.buffers;
      assert m == Run(d.loader, events[1..]).loader.buffers;
      RunStoresDecoded(d.loader, events[1..]);
      forall n | n in m
        ensures (n in l.buffers && m[n] == l.buffers[n]) || DecodedTo(events, n, m[n])
      {
        if DecodedTo(events[1..], n, m[n]) {
          var i :| 0 <= i < |events[1..]| && events[1..][i] == Event(n, DecodeOk(m[n]));
          assert events[i + 1] == Event(n, DecodeOk(m[n]));
        } else if ev.name in l.inFlight && ev.outcome.DecodeOk? && n == ev.name {
          assert m[n] == ev.outcome.buffer;
          assert events[0] == Event(n, DecodeOk(m[n]));
        }
      }
    }
  }

  /**
   * The callback runs at most once on any sequence of events, and never once
   * the counter has already reached the list length.
   */
  lemma {:induction false} FiresAtMostOnce(l: Loader, events: seq<Event>)
    ensures |Run(l, events).completions| <= (if l.loadCount < |l.sampleNames| then 1 else 0)
    decreases |events|
  {
    if events != [] {
      FiresAtMostOnce(OnEvent(l, events[0]).loader, events[1..]);
    }
  }

  /**
   * Over a real run, the callback runs exactly when the success count crosses
   * the list length, and when it runs it receives the final result map.
   */
  lemma {:induction false} CompletionCount(l: Loader, events: seq<Event>)
    requires Accounted(l)
    requires Answers(l, events)
    ensures |Run(l, events).completions| ==
      (if l.loadCount < |l.sampleNames| && l.loadCount + Successes(events) == |l.sampleNames| then 1 else 0)
    ensures |Run(l, events).completions| == 1 ==> Run(l, events).completions[0] == Run(l, events).loader.buffers
    decreases |events|
  {
    if events != [] {
      var rest := events[1..];
      AnswersStep(l, events);
      var d := OnEvent(l, events[0]);
      OnEventKeepsAccounted(l, events[0]);
      CompletionCount(d.loader, rest);
      if d.fired.Some? {
        assert |d.loader.inFlight| == 0;
        assert |multiset(Names(rest))| == 0;
        assert rest == [];
      }
    }
  }

  lemma SubMultisetSize<T>(a: multiset<T>, b: multiset<T>)
    requires a <= b
    ensures |a| <= |b|
  {
    assert b == a + (b - a);
  }

  /** Two multisets with containment and equal size are equal. */
  lemma SubMultisetSameSize<T>(a: multiset<T>, b: multiset<T>)
    requires a <= b && |a| == |b|
    ensures a == b
  {
    assert |b - a| == |b| - |a|;
  }

  /**
   * For a batch that has been started and has seen no event yet, over any
   * real run: the callback runs at most once, it runs if and only if every
   * requested name decoded successfully, and then it receives exactly one
   * buffer per requested name, each one a successful decode of that name.
   */
  lemma {:induction false} CompletesIffAllDecode(l: Loader, events: seq<Event>)
    requires |l.sampleNames| >= 1
    requires l.inFlight == multiset(l.sampleNames) && l.loadCount == 0 && l.buffers == map[]
    requires Answers(l, events)
    ensures |Run(l, events).completions| <= 1
    ensures |Run(l, events).completions| == 1 <==>
      |events| == |l.sampleNames| && forall i :: 0 <= i < |events| ==> events[i].outcome.DecodeOk?
    ensures |Run(l, events).completions| == 1 ==>
      Run(l, events).completions[0].Keys == set n | n in l.sampleNames
    ensures |Run(l, events).completions| == 1 ==>
      var c := Run(l, events).completions[0];
      forall n :: n in c ==> DecodedTo(events, n, c[n])
  {
    var t := Run(l, events);
    var n := |l.sampleNames|;
    CompletionCount(l, events);
    assert |t.completions| == (if Successes(events) == n then 1 else 0);
    SuccessesBound(events);
    assert Accounted(l);
    SubMultisetSize(multiset(Names(events)), multiset(l.sampleNames));
    assert |events| <= n;
    if |t.completions| == 1 {
      KeysOfCompletion(l, events);
      RunStoresDecoded(l, events);
    }
  }

  lemma {:induction false} KeysOfCompletion(l: Loader, events: seq<Event>)
    requires l.inFlight == multiset(l.sampleNames) && l.buffers == map[]
    requires Answers(l, events)
    requires |events| == |l.sampleNames|
    requires forall i :: 0 <= i < |events| ==> events[i].outcome.DecodeOk?
    ensures Run(l, events).loader.buffers.Keys == set n | n in l.sampleNames
  {
    SubMultisetSameSize(multiset(Names(events)), multiset(l.sampleNames));
    RunStoresSucceeded(l, events);
    AllSucceededNames(events);
    SameElements(Names(events), l.sampleNames);
  }

  /** Sequences with equal multisets have equal element sets. */
  lemma SameElements<T>(a: seq<T>, b: seq<T>)
    requires multiset(a) == multiset(b)
    ensures (set x | x in a) == (set x | x in b)
  {
    forall x ensures x in a <==> x in b {
      assert x in a <==> x in multiset(a);
      assert x in b <==> x in multiset(b);
    }
  }

  /** The same, stated for `new BufferLoader(names, urls, callback).load()`. */
  lemma {:induction false} BatchCompletesIffAllDecode(names: seq<string>, urls: map<string, string>, events: seq<Event>)
    requires |names| >= 1
    requires Answers(Start(names, urls).loader, events)
    ensures |Run(Start(names, urls).loader, events).completions| <= 1
    ensures |Run(Start(names, urls).loader, events).completions| == 1 <==>
      |events| == |names| && forall i :: 0 <= i < |events| ==> events[i].outcome.DecodeOk?
    ensures |Run(Start(names, urls).loader, events).completions| == 1 ==>
      Run(Start(names, urls).loader, events).completions[0].Keys == set n | n in names
    ensures |Run(Start(names, urls).loader, events).completions| == 1 ==>
      var c := Run(Start(names, urls).loader, events).completions[0];
      forall n :: n in c ==> DecodedTo(events, n, c[n])
  {
    CompletesIffAllDecode(Start(names, urls).loader, events);
  }

  /**
   * A request that never resolves stalls its batch: a started batch whose
   * run answers fewer requests than it has names never completes, whatever
   * those answers are.
   */
  lemma {:induction false} UnansweredRequestStallsBatch(names: seq<string>, urls: map<string, string>, events: seq<Event>)
    requires Answers(Start(names, urls).loader, events)
    requires |events| < |names|
    ensures Run(Start(names, urls).loader, events).completions == []
  {
    CompletesIffAllDecode(Start(names, urls).loader, events);
  }

  /** A batch with no names never completes: the count is only compared after an increment. */
  lemma {:induction false} EmptyBatchNeverCompletes(urls: map<string, string>, events: seq<Event>)
    ensures Run(Start([], urls).loader, events).completions == []
  {
    FiresAtMostOnce(Start([], urls).loader, events);
  }
}

=== FILE: effects.dfy ===
/**
 * The observable effects of the sound engine. Browser calls (node creation,
 * `start`, `stop`, `XMLHttpRequest`) and user-visible reports (`console.warn`,
 * `console.error`, `alert`) are not executed: the engine emits them as values.
 */
module Effects {
  import opened Wrappers

  /** An opaque handle for a decoded audio buffer (an `AudioBuffer` in the browser). */
  datatype Buf = Buf(handle: nat)

  /** Why one sample load went wrong; each becomes an out-of-band report. */
  datatype Problem =
    | NullDecode(url: Option<string>)  // the decoder handed back no buffer (an alert naming the url)
    | DecodeFailed                     // the decoder's error callback ran (a console error)
    | TransportFailed                  // the HTTP request itself failed (an alert)

  datatype Effect =
    /** Start a buffer source playing a freshly created silent buffer. */
    | SilentBufferStart(channels: nat, frames: nat, sampleRate: nat, when: real)
    /** Create an oscillator at `freq`, connect it to the output, start and stop it. */
    | OscillatorTone(freq: real, start: real, stop: real)
    /** Create a buffer source over `buffer`, connect it to the output and start it (no stop). */
    | BufferSourceStart(buffer: Buf, start: real)
    /** Issue an asynchronous GET for the bytes of sample `name`; `url` is `None` for an unknown name. */
    | Fetch(name: string, url: Option<string>)
    /** Low-severity warning: the selected sample has no cached buffer yet. */
    | Warn(sampleName: string)
    /** Operator-visible report of a failed load. */
    | Report(problem: Problem)

  /** Effects that ask the audio device to produce (or prime) output. */
  predicate IsAudioCommand(f: Effect) {
    f.SilentBufferStart? || f.OscillatorTone? || f.BufferSourceStart?
  }

  /** The number of silent-buffer starts in a list of effects. */
  function SilentStarts(fs: seq<Effect>): nat {
    if fs == [] then 0
    else (if fs[0].SilentBufferStart? then 1 else 0) + SilentStarts(fs[1..])
  }

  /** Counting distributes over concatenation. */
  lemma {:induction false} SilentStartsAppend(a: seq<Effect>, b: seq<Effect>)
    ensures SilentStarts(a + b) == SilentStarts(a) + SilentStarts(b)
  {
    if a == [] {
      assert a + b == b;
    } else {
      assert (a + b)[1..] == a[1..] + b;
      SilentStartsAppend(a[1..], b);
    }
  }
}

=== FILE: wrappers.dfy ===
/** The optional-value datatype used across the model, plus map lookup into it. */
module Wrappers {

  /** `None` stands for JavaScript's `undefined` where the source reads a missing key. */
  datatype Option<+T> = None | Some(value: T)

  /** Reading `m[k]` on a JavaScript object: the value when the key is present, otherwise `undefined`. */
  function Lookup<K, V>(m: map<K, V>, k: K): (r: Option<V>)
    ensures r.Some? <==> k in m
    ensures r.Some? ==> r.value == m[k]
  {
    if k in m then Some(m[k]) else None
  }
}
